=== FILE: README.md ===
# Theia access-log pipeline, modelled in Dafny

Theia tails a web server's access log and turns each line into a visit
event (`PageView`). It then folds each event into four SQLite tables:

- a table of one-way visitor fingerprints (`visitor_hashes`);
- per-hour page and bot view counters (`hourly_stats`);
- per-hour counters by status code (`hourly_status_codes`);
- per-hour counters by referrer (`hourly_referrers`).

A periodic sweep deletes aggregate rows older than 60 days and fingerprints
older than one day.

This project models the per-line path of `main.go` as pure functions over
immutable data:

- **Classification** (`classify.dfy`, `text.dfy`). Bot detection and
  static-asset detection are case-insensitive substring and suffix tests
  against the same token lists as the source. The string primitives they
  rely on are modelled too: lower-casing, `strings.Contains`,
  `strings.HasSuffix` and `strconv.Atoi`.
- **Parsing** (`parse.dfy`). Parsing chooses between the with-host and the
  standard line shape, defaults the host, converts the status and byte
  fields, fingerprints the visitor and classifies the request. The regular
  expressions are not modelled: a line arrives as the groups each pattern
  captured from it. Of the lines the scanner delivers, the reading loop
  keeps the ones that parse, in order, and skips the rest.
- **Aggregation** (`aggregate.dfy`, `records.dfy`).
  - Each table is a `map` from its composite key to its row.
  - `Apply` is one iteration of the aggregation loop: its six store
    statements. A failed fingerprint lookup and a failed insert both skip
    the insert, so they share one fault flag; each of the other four
    statements may fail on its own.
  - `ApplyAll` applies a stream of events in order.
  - `pipeline.dfy` joins parsing and aggregation.
- **Retention** (`retention.dfy`, `calendar.dfy`).
  - The three aggregate sweeps delete by the lexicographic
    (year, day-of-year) predicate of the source.
  - The cutoff is computed as 60 calendar days back, across year boundaries
    and leap years.
  - The fingerprint sweep deletes by first-seen time.

Two facts about the code are worth stating. First, `first_seen` holds the
event's own timestamp, not the time the line was processed (`main.go:143`),
and `Aggregate.RecordVisitor` stores the same. Second, the aggregate sweeps
compare (year, day-of-year) pairs with a cutoff 60 calendar days back, and
`Retention.RetentionWindow` shows that this deletes exactly the rows dated
more than 60 days before the sweep day, across year boundaries and leap
years.

## Model

| member | source | states |
|---|---|---|
| Text.ToLower | main.go:470 | lower-casing keeps the length and leaves no capital A-Z. It adds 32 to each capital A-Z, maps the dotted capital I to `i` and the Kelvin sign to `k`, and keeps every other character |
| Text.ToLowerCollapsesCase | main.go:470 | strings equal up to letter case lower-case to the same string, and lower-casing twice changes nothing |
| Text.Contains | main.go:484 | the substring test is true exactly when the pattern occurs at some position of the text |
| Text.HasSuffix | main.go:503 | a string has a suffix exactly when the suffix is no longer and its characters match the string's last characters position by position |
| Text.SuffixOfConcatenation | main.go:503 | any text followed by a suffix ends in that suffix |
| Text.SuffixSplits | main.go:503 | a string that ends in a suffix is its front part followed by that suffix |
| Text.ContainsAny | main.go:483-489 | the scan over a pattern list is true exactly when one of the patterns occurs |
| Text.EndsWithAny | main.go:502-506 | the scan over an extension list is true exactly when the text ends with one of them |
| Text.Atoi | main.go:319-326 | conversion succeeds exactly when the text is an optional sign followed by one or more digits and its value lies in the 64-bit range, and then gives that value |
| Text.FormatIntRoundTrip | main.go:319-326 | every 64-bit integer written in decimal is read back by the conversion as itself |
| Classify.DetectBot | main.go:469-490 | a user agent is a bot exactly when one of the 26 listed patterns occurs in its lower-cased text |
| Classify.IsStaticAsset | main.go:492-521 | a path is static exactly when its lower-cased text ends with one of the 24 extensions or contains one of the 10 directory segments |
| Classify.DetectBotIgnoresCase | main.go:469-470 | bot detection gives the same answer for user agents that differ only in letter case |
| Classify.IsStaticAssetIgnoresCase | main.go:492-500 | static detection gives the same answer for paths that differ only in letter case |
| Classify.BotStaysBotWhenExtended | main.go:483-487 | appending text to a bot user agent never makes it a non-bot |
| Classify.UnderStaticDirectoryIsStatic | main.go:508-518 | any path with a listed directory segment anywhere in it is static |
| Classify.NoMarkerNoBot | main.go:472-489 | a user agent without any of eleven marker letters matches no bot pattern |
| Classify.HtmlPageIsNotStatic | main.go:493-520 | an `.html` path outside every static directory is not static |
| Classify.CurlIsBot | main_test.go:70-72 | `curl/7.68.0` is a bot |
| Classify.BrowserIsNotBot | main_test.go:78-80 | `Mozilla/5.0` is not a bot |
| Classify.StylesheetIsStatic | main_test.go:74-76 | `/style.css` is static |
| Classify.PageIsNotStatic | main_test.go:82-84 | `/index.html` is not static |
| Classify.DottedCapitalIMatchesPattern | main.go:470-487 | a dotted capital I lower-cases to `i`, so `p\u0130ngdom` is a bot |
| LogParse.DefaultHost | main.go:267-272 | the host of a line without one is the configured setting, or `default` when the setting is empty |
| LogParse.DetermineMatchingPattern | main.go:279-292 | the with-host shape wins whenever it matched. The standard shape is used only when the with-host shape did not match. A line matching neither is an error |
| LogParse.ParseFields | main.go:300-347 | a line's fields parse exactly when the timestamp, the status and the byte count all convert. A parsed event carries the path, referrer and user agent from their groups, the parsed time, and the converted status and byte count. Its fingerprint is of address, user agent and processing date, and its flags are the classifiers of its own fields. Timestamp, status and byte errors arise exactly when that field is the first to fail, in that order |
| LogParse.ParseNginxLog | main.go:294-313 | a line matching neither shape is rejected. Otherwise the with-host groups with group 9 as host take precedence over the standard groups with the default host |
| LogParse.Captures | main.go:275-276 | a capturable line always matches the standard pattern, and the with-host pattern exactly when the line carries a host; the groups have the counts both patterns produce |
| LogParse.ParseRecoversEntry | main.go:294-348 | the groups of a log line rendered from an entry the patterns can capture, with in-range numbers, parse back to an event holding exactly the entry's fields |
| LogParse.OversizedStatusIsRejected | main.go:319-322 | a status too large for a 64-bit integer drops the line of a capturable entry |
| LogParse.ParseLines | main.go:255-264 | the reading loop yields one event per line that parses, and nothing else. The event of the line at position `i` sits at the position given by the number of lines before `i` that parse, so line order is kept. Every event is classified |
| LogParse.SuccessesInOrder | main.go:255-264 | keeping the successful outcomes skips none of them: one value per success, each at the position given by the successes before it |
| LogParse.ParseLinesKeepsOrder | main.go:255-264 | when every line parses, the events are the lines' events, one each, in line order |
| Aggregate.RecordVisitor | main.go:128-149 | a fingerprint row is inserted only for an unseen hash and holds the event's hour and time; existing rows are never changed, the table grows by at most one row, and a failed lookup or insert leaves the table as it was |
| Aggregate.VisitorsInHour | main.go:151-156 | the count of an hour is at most the number of fingerprints, and is zero exactly when no fingerprint is in that hour |
| Aggregate.UpsertStats | main.go:166-195 | the stats upsert sums both view counts on conflict, stores the snapshot as the unique-visitor count, and keeps the stored static flag |
| Aggregate.Bump | main.go:200-237 | a counter upsert inserts 1 or adds 1 under its key and changes no other row |
| Aggregate.InsertCountsInItsHour | main.go:151-156 | a new fingerprint adds one to the count of its own hour bucket and nothing to the others |
| Aggregate.Apply | main.go:128-237 | one event: fingerprints only added; an unseen hash gets a row holding the event's hour and time unless the lookup or insert fails, which leaves the fingerprint table unchanged. A bot event adds one bot view and no page view, any other event one page view and no bot view. The unique-visitor count is replaced by the number of fingerprints in the event's hour of day, whatever the day, or by 0 when counting fails. The static flag is kept on conflict. One status-code and one referrer counter go up by one. A failing statement leaves its table unchanged and nothing else changes |
| Aggregate.SnapshotCountsFirstSightings | main.go:137-159 | the count of an hour grows by one exactly when the event's hash was unseen, its insert succeeded and the event is in that hour |
| Aggregate.ApplyKeepsStaticFlags | main.go:166-195 | if every stored static flag agreed with the classifier of its row's path, it still does after a classified event, whatever fails |
| Aggregate.ApplyAll | main.go:120-238 | after a stream no stats row is lost, and every event has left a stats row for its bucket and a fingerprint row |
| Aggregate.ApplyAllKeepsStaticFlags | main.go:120-238 | over a stream of classified events, every stored static flag equals the classifier applied to its row's path |
| Aggregate.ViewsCountEvents | main.go:166-195 | over a stream, a bucket's page plus bot views grow by the number of its events and its bot views by the number of its bot events. A row exists exactly when it did before or an event fell into it |
| Aggregate.ViewsStep | main.go:166-195 | one event adds one view, of its kind, to its own bucket and nothing to any other |
| Aggregate.StatusCountsEvents | main.go:200-217 | over a stream, each status-code counter grows by the number of events with its bucket and status |
| Aggregate.ReferrerCountsEvents | main.go:219-237 | over a stream, each referrer counter grows by the number of events with its bucket and referrer |
| Aggregate.VisitorsOnlyGrow | main.go:128-149 | over a stream, no fingerprint row is lost or changed, and at most one is added per event |
| Aggregate.FirstVisitInNewBucket | main.go:128-195 | a first-time visitor in a new bucket creates a row with one view of its kind and its path's static flag, counting that visitor, and touches no other row |
| Aggregate.FirstSightingStep | main.go:137-156 | an unseen fingerprint adds exactly one row and counts in its own hour only |
| Aggregate.FirstSightingsAddTheirHashes | main.go:128-149 | a stream of first-time visitors adds exactly their fingerprints |
| Aggregate.FirstSightingsAddOneRowEach | main.go:128-149 | a stream of first-time visitors adds one fingerprint row per event |
| Aggregate.FirstSightingsAreCounted | main.go:151-159 | under first-time visitors, each hour's unique-visitor count grows by the events in that hour |
| Aggregate.LastSnapshotCountsHour | main.go:156-194 | the row the last event updated holds the number of fingerprints in that event's hour as its unique-visitor count |
| Aggregate.HashesAreTheEventsHashes | main.go:133-143 | a fingerprint is among a stream's fingerprints exactly when one of its events carries it |
| Aggregate.DistinctNewHashesAreFirstSightings | main.go:133-143 | events with fresh, pairwise distinct fingerprints are all first sightings |
| Pipeline.Ingest | main.go:255-264 | reading, parsing and aggregating lines keeps every fingerprint row intact and adds at most one fingerprint per line. Every line that parses leaves a stats row for its bucket and a fingerprint row. Each bucket's views grow by the number of parsed events in it. Correct static flags stay correct |
| Pipeline.IngestCountsNewVisitors | main.go:151-194 | for lines from new, distinct visitors in one hour, each parsed event adds a fingerprint row. The row the last event updates then counts all of them as unique visitors |
| Calendar.EndOfPreviousYear | main.go:399-401 | the last day of the previous year is a valid earlier day, as many days back as the given day's number in its year |
| Calendar.DaysBefore | main.go:399-401 | stepping back `n` days lands on a valid day whose running day number is exactly `n` smaller |
| Calendar.DaysBeforeAdds | main.go:399 | stepping back `m` days then `n` days is stepping back `m + n` days |
| Calendar.OrderMatchesAge | main.go:399-401 | counting back from one day, the (year, day-of-year) order of two results is exactly the order of their distances |
| Calendar.BeforeIsEarlierDay | main.go:403-406 | on valid days the (year, day-of-year) order the sweeps compare by is exactly the order of running day numbers |
| Calendar.DayNumberIdentifiesDate | main.go:399-401 | two valid days with the same running day number are the same day |
| Retention.CutoffFor | main.go:399-401 | the cutoff is a valid day exactly 60 days, by running day number, before the sweep day |
| Retention.Expired | main.go:403-406 | the delete condition holds exactly when the row's (year, day-of-year) comes before the cutoff's |
| Retention.Stale | main.go:456-458 | a fingerprint row is stale exactly when it was first seen more than 86400 seconds before now |
| Retention.SweepStats | main.go:398-415 | a stats row is deleted exactly when its year is before the cutoff's, or equal with an earlier day; survivors are unchanged |
| Retention.SweepStatusCodes | main.go:417-434 | the same for status-code rows |
| Retention.SweepReferrers | main.go:436-453 | the same for referrer rows |
| Retention.SweepVisitors | main.go:455-467 | a fingerprint row is deleted exactly when it was first seen more than one day before now; survivors are unchanged |
| Retention.PerformAllCleanups | main.go:372-396 | after a cleanup run no table gained a row and no aggregate row is older than the cutoff; every aggregate row not older than the cutoff survives unchanged. Exactly the fingerprints at most a day old remain, each unchanged |
| Retention.CleanupIdempotent | main.go:372-396 | a second cleanup with the same clock deletes nothing more |
| Retention.LaterCutoffDeletesMore | main.go:403-406 | a later cutoff keeps no row that an earlier cutoff deletes |
| Retention.RetentionWindow | main.go:398-406 | a row dated `age` days before the sweep day is deleted exactly when `age > 60`, across year boundaries and leap years |
| Retention.YearBoundaryCutoff | main.go:399-401 | sixty days before 30 January 2025 is day 336 of the leap year 2024 |
| Retention.FingerprintWindow | main.go:456-458 | a fingerprint row survives exactly while it is at most one day old |
| Retention.ExpiredByDayNumber | main.go:403-406 | on valid days the delete condition holds exactly when the row's running day number is below the cutoff's |
| Retention.LaterSweepDeletesMoreFingerprints | main.go:456-458 | a fingerprint sweep run later keeps no row that an earlier one deletes |

## Left out

- The regular expressions (`main.go:274-277`): a line is modelled as the groups each pattern captured, or none. The group counts are a precondition (`LogParse.WellFormed`). `LogParse.Captures` states the groups the patterns are taken to capture from a line rendered from a `Renderable` entry, one whose address, method and path have no whitespace, whose timestamp has no `]` and whose quoted fields have no `"`. Other entries render lines the patterns read differently or not at all.
- `time.Parse`, SHA-256 with hex encoding, `time.Now` and `os.Getenv` are inputs to the model. They are a parser function, an uninterpreted fingerprint function, the processing date and the host setting in `LogParse.Environment`.
- The retention sweeps take the sweep day and the current instant as inputs. Time zones are not modelled. `first_seen` is written in the event's zone and compared with SQLite's UTC `now`; the model compares plain seconds.
- Text.ToLower: besides the ASCII capitals it folds only the dotted capital I (U+0130, to `i`) and the Kelvin sign (U+212A, to `k`), the two non-ASCII letters Go's `strings.ToLower` maps to ASCII. Every other non-ASCII letter is kept, where Go maps it to its non-ASCII lower case. Every bot pattern, extension and directory segment is ASCII, so the classifiers answer the same either way. nginx writes bytes above 0x7E in a log line as `\xHH` escapes, so such letters rarely reach the classifiers.
- The process plumbing is not modelled: `tailLog`'s `exec` of `tail`, `run`/`main`, signal handling, the channel between reader and aggregator, the cleanup ticker, and all logging. `Pipeline.Ingest` composes the reading loop and the aggregation loop directly, as the single channel preserves order.
- The number of deleted rows each sweep returns is not modelled: it is only logged. A failed delete pass is not modelled either.
- Aggregate.ApplyAll and the stream lemmas: each assumes that no store statement fails. `Aggregate.Apply` covers the failures one event at a time.
- LogParse.ParseLines: the model takes the lines the scanner delivers. The source's `bufio.Scanner` (`main.go:255-256`) stops for good at the first line longer than 64 KiB, its error is never read, and `run` then returns (`main.go:116-117`), so no later line is read.
- Pipeline.Ingest: the store after every parsed event has been applied. In the source `run` returns as soon as the reader does (`main.go:116-117`), without waiting for the aggregator, so events still in the 100-slot channel (`main.go:105`) are never applied. After a shutdown signal the channel is closed (`main.go:353`) and the reader's next send (`main.go:263`) panics.
- Aggregate.Apply: the six statements of one event happen at once. In the source the cleanup goroutine (`main.go:111`) runs concurrently with the aggregator (`main.go:110`), so a sweep can delete rows between two statements of one event, for example between the fingerprint insert and the per-hour count. The model places sweeps only between events.
- LogParse.ParseLines: one processing date (`Environment.today`) serves a whole stream. The source reads `time.Now()` for every line (`main.go:328`), so in a stream that crosses midnight the same visitor gets two fingerprints; the model gives one.
- Retention.PerformAllCleanups: one cutoff serves all three aggregate sweeps. The source reads `time.Now()` in each sweep (`main.go:399`, `main.go:418`, `main.go:437`), so a run across midnight can use cutoffs a day apart.
- Counters and integers are unbounded. SQLite's 64-bit integer overflow of a counter is not modelled. The status and byte fields are bounded by the modelled 64-bit conversion.
- `database/db.go` and `database/migrations.go` are not part of this model. They only open the database and run migrations.
- The end-to-end scenario of `main_test.go` is not modelled line for line, because that test queries a `pageviews` table and helpers the program no longer has. It asserts that three rows exist (`main_test.go:66-68`) and four classification flags (`main_test.go:70-84`). The flags are the four concrete `Classify` lemmas; the row count is about a table outside this model.

=== FILE: aggregate.dfy ===
/**
  The aggregation step: one event applied to the four tables with
  insert-or-update semantics, and a stream of events applied in order.

  Each table is a map from its primary key to its row; an upsert that hits an
  existing key updates that row, otherwise it inserts one.
 */
module Aggregate {
  import opened Records
  import opened Classify
  import opened LogParse

  /**
    Which store statements of one event fail. There are six: the fingerprint
    lookup, the fingerprint insert, the per-hour count and three upserts. The
    lookup and the insert share one flag, since a failure of either skips the
    insert; a failed count leaves the snapshot at 0; a
    failed upsert leaves its table as it was. The other steps still run.
   */
  datatype Faults = Faults(
    visitorWrite: bool, visitorCount: bool, statsWrite: bool, statusWrite: bool, referrerWrite: bool)

  const NoFaults: Faults := Faults(false, false, false, false, false)

  /** The fingerprints first seen in hour-of-day `hour`, on any day of any year. */
  function VisitorsInHour(visitors: map<string, VisitorRow>, hour: int): (count: nat)
    ensures count <= |visitors|
    ensures count == 0 <==> forall h :: h in visitors ==> visitors[h].hourBucket != hour
  {
    var inHour := set h | h in visitors && visitors[h].hourBucket == hour;
    SubsetNoLarger(inHour, visitors.Keys);
    assert forall h :: h in visitors && visitors[h].hourBucket == hour ==> h in inHour;
    |inHour|
  }

  /** A subset has no more elements than its superset. */
  lemma {:induction false} SubsetNoLarger<T>(a: set<T>, b: set<T>)
    requires a <= b
    ensures |a| <= |b|
    decreases |a|
  {
    if a != {} {
      var x :| x in a;
      SubsetNoLarger(a - {x}, b - {x});
    }
  }

  /** Inserting a fresh fingerprint adds one to the count of its own hour and nothing to the others. */
  lemma InsertCountsInItsHour(visitors: map<string, VisitorRow>, h: string, row: VisitorRow, hour: int)
    requires h !in visitors
    ensures VisitorsInHour(visitors[h := row], hour)
         == VisitorsInHour(visitors, hour) + (if row.hourBucket == hour then 1 else 0)
  {
    var grown := visitors[h := row];
    var before := set g | g in visitors && visitors[g].hourBucket == hour;
    var after := set g | g in grown && grown[g].hourBucket == hour;
    if row.hourBucket == hour {
      assert after == before + {h};
    } else {
      assert after == before;
    }
  }

  /** The fingerprint step: insert a row for an unseen hash, leave a known one alone. */
  function RecordVisitor(visitors: map<string, VisitorRow>, pv: PageView, fails: bool): (r: map<string, VisitorRow>)
    ensures forall h :: h in visitors ==> h in r && r[h] == visitors[h]
    ensures r.Keys <= visitors.Keys + {pv.idHash}
    ensures fails ==> r == visitors
    ensures !fails ==> pv.idHash in r
    ensures pv.idHash in r && pv.idHash !in visitors ==> r[pv.idHash] == VisitorRow(pv.clock.hour, pv.clock.seconds)
    ensures |r| <= |visitors| + 1
  {
    if pv.idHash in visitors || fails then visitors
    else visitors[pv.idHash := VisitorRow(pv.clock.hour, pv.clock.seconds)]
  }

  /** Page and bot views stored under a key, 0 for a missing row. */
  function PageViews(stats: map<Bucket, StatsRow>, k: Bucket): nat {
    if k in stats then stats[k].pageViews else 0
  }

  function BotViews(stats: map<Bucket, StatsRow>, k: Bucket): nat {
    if k in stats then stats[k].botViews else 0
  }

  /** The count stored under a key of a counter table, 0 for a missing row. */
  function CountOf<K>(counts: map<K, nat>, k: K): nat {
    if k in counts then counts[k] else 0
  }

  /**
    The `hourly_stats` upsert: a fresh row holds one page view or one bot view;
    on conflict both view counts are summed, the unique-visitor count is
    replaced by the snapshot and the static flag stays as it was.
   */
  function UpsertStats(stats: map<Bucket, StatsRow>, k: Bucket, isBot: bool, isStatic: bool, snapshot: nat)
    : (r: map<Bucket, StatsRow>)
    ensures r.Keys == stats.Keys + {k}
    ensures forall j :: j in stats && j != k ==> r[j] == stats[j]
    ensures r[k].pageViews == PageViews(stats, k) + (if isBot then 0 else 1)
    ensures r[k].botViews == BotViews(stats, k) + (if isBot then 1 else 0)
    ensures r[k].uniqueVisitors == snapshot
    ensures r[k].isStatic == if k in stats then stats[k].isStatic else isStatic
  {
    var pageIncrement := if isBot then 0 else 1;
    var botIncrement := if isBot then 1 else 0;
    if k in stats then
      var row := stats[k];
      stats[k := StatsRow(row.pageViews + pageIncrement, row.isStatic, snapshot, row.botViews + botIncrement)]
    else
      stats[k := StatsRow(pageIncrement, isStatic, snapshot, botIncrement)]
  }

  /** A counter upsert: insert a count of 1, or add 1 to the existing count. */
  function Bump<K>(counts: map<K, nat>, k: K): (r: map<K, nat>)
    ensures r.Keys == counts.Keys + {k}
    ensures r[k] == CountOf(counts, k) + 1
    ensures forall j :: j in counts && j != k ==> r[j] == counts[j]
  {
    counts[k := CountOf(counts, k) + 1]
  }

  /** The key of the status-code and referrer rows an event updates. */
  function StatusKeyOf(pv: PageView): StatusKey {
    StatusKey(BucketOf(pv), pv.statusCode)
  }

  function ReferrerKeyOf(pv: PageView): ReferrerKey {
    ReferrerKey(BucketOf(pv), pv.referrer)
  }

  /** One iteration of the aggregation loop: the six store statements for one event. */
  function Apply(db: Store, pv: PageView, f: Faults): (r: Store)
    // fingerprints: rows are only ever added, one at most, and never rewritten
    ensures forall h :: h in db.visitors ==> h in r.visitors && r.visitors[h] == db.visitors[h]
    ensures r.visitors.Keys <= db.visitors.Keys + {pv.idHash}
    ensures |r.visitors| <= |db.visitors| + 1
    ensures f.visitorWrite ==> r.visitors == db.visitors
    ensures !f.visitorWrite ==> pv.idHash in r.visitors
    ensures !f.visitorWrite && pv.idHash !in db.visitors ==>
      r.visitors[pv.idHash] == VisitorRow(pv.clock.hour, pv.clock.seconds)
    // hourly_stats: one more view under the event's bucket, the snapshot replacing the old count
    ensures f.statsWrite ==> r.stats == db.stats
    ensures !f.statsWrite ==>
      var k := BucketOf(pv);
      && r.stats.Keys == db.stats.Keys + {k}
      && (forall j :: j in db.stats && j != k ==> r.stats[j] == db.stats[j])
      && r.stats[k].pageViews == PageViews(db.stats, k) + (if pv.isBot then 0 else 1)
      && r.stats[k].botViews == BotViews(db.stats, k) + (if pv.isBot then 1 else 0)
      && r.stats[k].uniqueVisitors == (if f.visitorCount then 0 else VisitorsInHour(r.visitors, pv.clock.hour))
      && r.stats[k].isStatic == (if k in db.stats then db.stats[k].isStatic else pv.isStatic)
    // hourly_status_codes and hourly_referrers: exactly one counter goes up by one
    ensures f.statusWrite ==> r.statusCodes == db.statusCodes
    ensures !f.statusWrite ==>
      && r.statusCodes.Keys == db.statusCodes.Keys + {StatusKeyOf(pv)}
      && r.statusCodes[StatusKeyOf(pv)] == CountOf(db.statusCodes, StatusKeyOf(pv)) + 1
      && (forall j :: j in db.statusCodes && j != StatusKeyOf(pv) ==> r.statusCodes[j] == db.statusCodes[j])
    ensures f.referrerWrite ==> r.referrers == db.referrers
    ensures !f.referrerWrite ==>
      && r.referrers.Keys == db.referrers.Keys + {ReferrerKeyOf(pv)}
      && r.referrers[ReferrerKeyOf(pv)] == CountOf(db.referrers, ReferrerKeyOf(pv)) + 1
      && (forall j :: j in db.referrers && j != ReferrerKeyOf(pv) ==> r.referrers[j] == db.referrers[j])
  {
    var visitors := RecordVisitor(db.visitors, pv, f.visitorWrite);
    var snapshot := if f.visitorCount then 0 else VisitorsInHour(visitors, pv.clock.hour);
    Store(
      visitors,
      if f.statsWrite then db.stats else UpsertStats(db.stats, BucketOf(pv), pv.isBot, pv.isStatic, snapshot),
      if f.statusWrite then db.statusCodes else Bump(db.statusCodes, StatusKeyOf(pv)),
      if f.referrerWrite then db.referrers else Bump(db.referrers, ReferrerKeyOf(pv)))
  }

  /** The unique-visitor count of an hour grows only by a first sighting in that hour. */
  lemma SnapshotCountsFirstSightings(db: Store, pv: PageView, f: Faults, hour: int)
    ensures VisitorsInHour(Apply(db, pv, f).visitors, hour)
         == VisitorsInHour(db.visitors, hour)
            + (if pv.idHash !in db.visitors && !f.visitorWrite && pv.clock.hour == hour then 1 else 0)
  {
    if pv.idHash !in db.visitors && !f.visitorWrite {
      InsertCountsInItsHour(db.visitors, pv.idHash, VisitorRow(pv.clock.hour, pv.clock.seconds), hour);
    }
  }

  /** Every stored static flag agrees with the classifier applied to the row's path. */
  predicate StaticFlagsAgree(stats: map<Bucket, StatsRow>) {
    forall k :: k in stats ==> stats[k].isStatic == IsStaticAsset(k.path)
  }

  /** Applying a classified event keeps the static flags right, whatever fails. */
  lemma ApplyKeepsStaticFlags(db: Store, pv: PageView, f: Faults)
    requires StaticFlagsAgree(db.stats) && Classified(pv)
    ensures StaticFlagsAgree(Apply(db, pv, f).stats)
  {
  }

  // ---------------------------------------------------------------------------
  // The aggregation loop over a stream of events

  /** The store after the events have been applied in order, none of the statements failing. */
  function ApplyAll(db: Store, events: seq<PageView>): (r: Store)
    ensures db.stats.Keys <= r.stats.Keys
    ensures forall pv :: pv in events ==> BucketOf(pv) in r.stats && pv.idHash in r.visitors
  {
    if |events| == 0 then db
    else
      var front, last := events[..|events| - 1], events[|events| - 1];
      var before := ApplyAll(db, front);
      assert events == front + [last];
      ApplyKeepsRows(before, last);
      Apply(before, last, NoFaults)
  }

  /** An event keeps every stats and fingerprint row and leaves a row of each for itself. */
  lemma ApplyKeepsRows(db: Store, pv: PageView)
    ensures var r := Apply(db, pv, NoFaults);
      && db.stats.Keys <= r.stats.Keys && BucketOf(pv) in r.stats
      && db.visitors.Keys <= r.visitors.Keys && pv.idHash in r.visitors
  {
  }

  /** How many events fall into a bucket, and how many of those are bots. */
  function Hits(events: seq<PageView>, k: Bucket): nat {
    if |events| == 0 then 0
    else Hits(events[..|events| - 1], k) + (if BucketOf(events[|events| - 1]) == k then 1 else 0)
  }

  function BotHits(events: seq<PageView>, k: Bucket): nat {
    if |events| == 0 then 0
    else
      var last := events[|events| - 1];
      BotHits(events[..|events| - 1], k) + (if BucketOf(last) == k && last.isBot then 1 else 0)
  }

  function StatusHits(events: seq<PageView>, k: StatusKey): nat {
    if |events| == 0 then 0
    else StatusHits(events[..|events| - 1], k) + (if StatusKeyOf(events[|events| - 1]) == k then 1 else 0)
  }

  function ReferrerHits(events: seq<PageView>, k: ReferrerKey): nat {
    if |events| == 0 then 0
    else ReferrerHits(events[..|events| - 1], k) + (if ReferrerKeyOf(events[|events| - 1]) == k then 1 else 0)
  }

  /**
    Page and bot views are additive: a bucket's views grow by the number of
    events in it, its bot views by the number of bot events in it.
   */
  lemma {:induction false} ViewsCountEvents(db: Store, events: seq<PageView>, k: Bucket)
    ensures var r := ApplyAll(db, events).stats;
      && PageViews(r, k) + BotViews(r, k) == PageViews(db.stats, k) + BotViews(db.stats, k) + Hits(events, k)
      && BotViews(r, k) == BotViews(db.stats, k) + BotHits(events, k)
    ensures k in ApplyAll(db, events).stats <==> k in db.stats || Hits(events, k) > 0
  {
    if |events| > 0 {
      var front := events[..|events| - 1];
      ViewsCountEvents(db, front, k);
      var before := ApplyAll(db, front);
      var pv := events[|events| - 1];
      assert ApplyAll(db, events) == Apply(before, pv, NoFaults);
      ViewsStep(before, pv, k);
    }
  }

  /** Every bucket at once: its views grow by the number of events in it. */
  lemma AllBucketsCountEvents(db: Store, events: seq<PageView>)
    ensures forall k :: PageViews(ApplyAll(db, events).stats, k) + BotViews(ApplyAll(db, events).stats, k)
                     == PageViews(db.stats, k) + BotViews(db.stats, k) + Hits(events, k)
  {
    forall k {
      ViewsCountEvents(db, events, k);
    }
  }

  /** One event adds one view to its own bucket, of its kind, and nothing to the others. */
  lemma ViewsStep(db: Store, pv: PageView, k: Bucket)
    ensures var r := Apply(db, pv, NoFaults).stats;
      && PageViews(r, k) + BotViews(r, k)
         == PageViews(db.stats, k) + BotViews(db.stats, k) + (if BucketOf(pv) == k then 1 else 0)
      && BotViews(r, k) == BotViews(db.stats, k) + (if BucketOf(pv) == k && pv.isBot then 1 else 0)
      && (k in r <==> k in db.stats || BucketOf(pv) == k)
  {
  }

  /** Each status-code row counts the events with its bucket and status. */
  lemma {:induction false} StatusCountsEvents(db: Store, events: seq<PageView>, k: StatusKey)
    ensures CountOf(ApplyAll(db, events).statusCodes, k) == CountOf(db.statusCodes, k) + StatusHits(events, k)
  {
    if |events| > 0 {
      StatusCountsEvents(db, events[..|events| - 1], k);
    }
  }

  /** Each referrer row counts the events with its bucket and referrer. */
  lemma {:induction false} ReferrerCountsEvents(db: Store, events: seq<PageView>, k: ReferrerKey)
    ensures CountOf(ApplyAll(db, events).referrers, k) == CountOf(db.referrers, k) + ReferrerHits(events, k)
  {
    if |events| > 0 {
      ReferrerCountsEvents(db, events[..|events| - 1], k);
    }
  }

  /** A stream of classified events keeps every static flag right. */
  lemma {:induction false} ApplyAllKeepsStaticFlags(db: Store, events: seq<PageView>)
    requires StaticFlagsAgree(db.stats)
    requires forall i :: 0 <= i < |events| ==> Classified(events[i])
    ensures StaticFlagsAgree(ApplyAll(db, events).stats)
  {
    if |events| > 0 {
      ApplyAllKeepsStaticFlags(db, events[..|events| - 1]);
      ApplyKeepsStaticFlags(ApplyAll(db, events[..|events| - 1]), events[|events| - 1], NoFaults);
    }
  }

  /** The fingerprint table keeps every row it had and gains at most one row per event. */
  lemma {:induction false} VisitorsOnlyGrow(db: Store, events: seq<PageView>)
    ensures forall h :: h in db.visitors ==>
      h in ApplyAll(db, events).visitors && ApplyAll(db, events).visitors[h] == db.visitors[h]
    ensures |ApplyAll(db, events).visitors| <= |db.visitors| + |events|
  {
    if |events| > 0 {
      VisitorsOnlyGrow(db, events[..|events| - 1]);
    }
  }

  /** The row an event alone creates in an empty bucket: one view of its kind. */
  predicate FreshRow(row: StatsRow, pv: PageView) {
    && row.botViews == (if pv.isBot then 1 else 0)
    && row.pageViews == (if pv.isBot then 0 else 1)
    && row.isStatic == pv.isStatic
  }

  /**
    A first-time visitor in a new bucket: one more fingerprint, a fresh row
    whose snapshot counts that visitor, every other row untouched.
   */
  lemma FirstVisitInNewBucket(db: Store, pv: PageView)
    requires pv.idHash !in db.visitors && BucketOf(pv) !in db.stats
    ensures var r := Apply(db, pv, NoFaults);
      && r.visitors.Keys == db.visitors.Keys + {pv.idHash}
      && r.stats.Keys == db.stats.Keys + {BucketOf(pv)}
      && (forall k :: k in db.stats ==> r.stats[k] == db.stats[k])
      && FreshRow(r.stats[BucketOf(pv)], pv)
      && r.stats[BucketOf(pv)].uniqueVisitors == VisitorsInHour(db.visitors, pv.clock.hour) + 1
  {
    SnapshotCountsFirstSightings(db, pv, NoFaults, pv.clock.hour);
  }

  /** How many events of a stream happened in hour-of-day `hour`. */
  function HourHits(events: seq<PageView>, hour: int): nat {
    if |events| == 0 then 0
    else HourHits(events[..|events| - 1], hour) + (if events[|events| - 1].clock.hour == hour then 1 else 0)
  }

  /** The fingerprints a stream carries. */
  function Hashes(events: seq<PageView>): set<string> {
    if |events| == 0 then {}
    else Hashes(events[..|events| - 1]) + {events[|events| - 1].idHash}
  }

  /** Every event of the stream is a visitor neither the store nor an earlier event has seen. */
  predicate FirstSightings(visitors: map<string, VisitorRow>, events: seq<PageView>) {
    |events| == 0 ||
      var front, last := events[..|events| - 1], events[|events| - 1];
      FirstSightings(visitors, front) && last.idHash !in visitors && last.idHash !in Hashes(front)
  }

  /** One first sighting: one more fingerprint, counted in its own hour only. */
  lemma FirstSightingStep(db: Store, pv: PageView, hour: int)
    requires pv.idHash !in db.visitors
    ensures var r := Apply(db, pv, NoFaults).visitors;
      && r.Keys == db.visitors.Keys + {pv.idHash}
      && |r| == |db.visitors| + 1
      && VisitorsInHour(r, hour) == VisitorsInHour(db.visitors, hour) + (if pv.clock.hour == hour then 1 else 0)
  {
    SnapshotCountsFirstSightings(db, pv, NoFaults, hour);
  }

  /** A stream of first sightings adds exactly its own fingerprints. */
  lemma {:induction false} FirstSightingsAddTheirHashes(db: Store, events: seq<PageView>)
    requires FirstSightings(db.visitors, events)
    ensures ApplyAll(db, events).visitors.Keys == db.visitors.Keys + Hashes(events)
  {
    if |events| > 0 {
      var front := events[..|events| - 1];
      FirstSightingsAddTheirHashes(db, front);
      var before := ApplyAll(db, front);
      var pv := events[|events| - 1];
      assert ApplyAll(db, events) == Apply(before, pv, NoFaults);
      FirstSightingStep(before, pv, 0);
    }
  }

  /** A stream of first sightings adds one fingerprint row per event. */
  lemma {:induction false} FirstSightingsAddOneRowEach(db: Store, events: seq<PageView>)
    requires FirstSightings(db.visitors, events)
    ensures |ApplyAll(db, events).visitors| == |db.visitors| + |events|
  {
    if |events| > 0 {
      var front := events[..|events| - 1];
      FirstSightingsAddOneRowEach(db, front);
      FirstSightingsAddTheirHashes(db, front);
      var before := ApplyAll(db, front);
      var pv := events[|events| - 1];
      assert ApplyAll(db, events) == Apply(before, pv, NoFaults);
      FirstSightingStep(before, pv, 0);
    }
  }

  /** Under a stream of first sightings, each hour's unique-visitor count grows by the events in that hour. */
  lemma {:induction false} FirstSightingsAreCounted(db: Store, events: seq<PageView>, hour: int)
    requires FirstSightings(db.visitors, events)
    ensures VisitorsInHour(ApplyAll(db, events).visitors, hour) == VisitorsInHour(db.visitors, hour) + HourHits(events, hour)
  {
    if |events| > 0 {
      var front := events[..|events| - 1];
      FirstSightingsAreCounted(db, front, hour);
      FirstSightingsAddTheirHashes(db, front);
      var before := ApplyAll(db, front);
      var pv := events[|events| - 1];
      assert ApplyAll(db, events) == Apply(before, pv, NoFaults);
      FirstSightingStep(before, pv, hour);
    }
  }

  /**
    The row of the last event's bucket carries, as its unique-visitor count,
    the number of fingerprints first seen in that event's hour.
   */
  lemma LastSnapshotCountsHour(db: Store, events: seq<PageView>)
    requires |events| > 0
    ensures var last, r := events[|events| - 1], ApplyAll(db, events);
      r.stats[BucketOf(last)].uniqueVisitors == VisitorsInHour(r.visitors, last.clock.hour)
  {
  }

  /** A stream all in one hour counts every event in that hour. */
  lemma {:induction false} HourHitsOfOneHour(events: seq<PageView>, hour: int)
    requires forall i :: 0 <= i < |events| ==> events[i].clock.hour == hour
    ensures HourHits(events, hour) == |events|
  {
    if |events| > 0 {
      var front := events[..|events| - 1];
      assert forall i :: 0 <= i < |front| ==> front[i] == events[i];
      HourHitsOfOneHour(front, hour);
    }
  }

  /** A stream carries a fingerprint exactly when one of its events does. */
  lemma {:induction false} HashesAreTheEventsHashes(events: seq<PageView>, h: string)
    ensures h in Hashes(events) <==> exists i :: 0 <= i < |events| && events[i].idHash == h
  {
    if |events| > 0 {
      var front := events[..|events| - 1];
      HashesAreTheEventsHashes(front, h);
      if h in Hashes(front) {
        var i :| 0 <= i < |front| && front[i].idHash == h;
        assert events[i] == front[i];
      }
      if exists i :: 0 <= i < |events| && events[i].idHash == h {
        var i :| 0 <= i < |events| && events[i].idHash == h;
        if i < |front| {
          assert front[i] == events[i];
        }
      }
    }
  }

  /** Fresh, pairwise distinct fingerprints are first sightings. */
  lemma {:induction false} DistinctNewHashesAreFirstSightings(visitors: map<string, VisitorRow>, events: seq<PageView>)
    requires forall i :: 0 <= i < |events| ==> events[i].idHash !in visitors
    requires forall i, j :: 0 <= i < j < |events| ==> events[i].idHash != events[j].idHash
    ensures FirstSightings(visitors, events)
  {
    if |events| > 0 {
      var front, last := events[..|events| - 1], events[|events| - 1];
      assert forall i :: 0 <= i < |front| ==> front[i] == events[i];
      DistinctNewHashesAreFirstSightings(visitors, front);
      HashesAreTheEventsHashes(front, last.idHash);
    }
  }
}

=== FILE: calendar.dfy ===
/**
  Calendar days named by (year, day-of-year), as Go's `Time.Year` and
  `Time.YearDay` report them, and stepping back a number of days, as
  `AddDate(0, 0, -n)` does.
 */
module Calendar {

  /** The proleptic Gregorian leap-year rule. */
  predicate IsLeapYear(year: int) {
    year % 4 == 0 && (year % 100 != 0 || year % 400 == 0)
  }

  function DaysInYear(year: int): int {
    if IsLeapYear(year) then 366 else 365
  }

  /** A day of a year, numbered from 1. */
  datatype Date = Date(year: int, yearDay: int)

  predicate Valid(d: Date) {
    1 <= d.yearDay <= DaysInYear(d.year)
  }

  /** Lexicographic order on (year, day-of-year). */
  predicate Before(a: Date, b: Date) {
    a.year < b.year || (a.year == b.year && a.yearDay < b.yearDay)
  }

  /** The days between 1 January of year 1 and 1 January of `year`; negative for earlier years. */
  function YearStart(year: int): int
    decreases if year >= 1 then year - 1 else 1 - year
  {
    if year == 1 then 0
    else if year > 1 then YearStart(year - 1) + DaysInYear(year - 1)
    else YearStart(year + 1) - DaysInYear(year)
  }

  /** Consecutive years start one year's length apart. */
  lemma YearStartStep(year: int)
    ensures YearStart(year + 1) == YearStart(year) + DaysInYear(year)
  {
  }

  /** A later year starts at least a whole year after an earlier one. */
  lemma {:induction false} YearStartGrows(early: int, late: int)
    requires early < late
    ensures YearStart(late) >= YearStart(early) + DaysInYear(early)
    decreases late - early
  {
    YearStartStep(late - 1);
    if early < late - 1 {
      YearStartGrows(early, late - 1);
    }
  }

  /** A running count of days, 1 on 1 January of year 1, continuing across year boundaries. */
  function DayNumber(d: Date): int {
    YearStart(d.year) + d.yearDay
  }

  /** On valid dates the (year, day-of-year) order is the order of the day numbers. */
  lemma BeforeIsEarlierDay(a: Date, b: Date)
    requires Valid(a) && Valid(b)
    ensures Before(a, b) <==> DayNumber(a) < DayNumber(b)
  {
    if a.year < b.year {
      YearStartGrows(a.year, b.year);
    } else if b.year < a.year {
      YearStartGrows(b.year, a.year);
    }
  }

  /** Valid dates with the same day number are the same date. */
  lemma DayNumberIdentifiesDate(a: Date, b: Date)
    requires Valid(a) && Valid(b) && DayNumber(a) == DayNumber(b)
    ensures a == b
  {
    BeforeIsEarlierDay(a, b);
    BeforeIsEarlierDay(b, a);
  }

  /** The last day of the year before `d`'s. */
  function EndOfPreviousYear(d: Date): (r: Date)
    ensures Valid(r) && Before(r, d)
    ensures DayNumber(r) == DayNumber(d) - d.yearDay
  {
    YearStartStep(d.year - 1);
    Date(d.year - 1, DaysInYear(d.year - 1))
  }

  /** The day `n` days before `d`. */
  function DaysBefore(d: Date, n: nat): (r: Date)
    requires Valid(d)
    ensures Valid(r)
    ensures DayNumber(r) == DayNumber(d) - n
    ensures n == 0 ==> r == d
    ensures n > 0 ==> Before(r, d)
    decreases n
  {
    if n < d.yearDay then Date(d.year, d.yearDay - n)
    else DaysBefore(EndOfPreviousYear(d), n - d.yearDay)
  }

  /** Going back `m` days and then `n` more is going back `m + n` days. */
  lemma {:induction false} DaysBeforeAdds(d: Date, m: nat, n: nat)
    requires Valid(d)
    ensures DaysBefore(d, m + n) == DaysBefore(DaysBefore(d, m), n)
    decreases m
  {
    if m >= d.yearDay {
      DaysBeforeAdds(EndOfPreviousYear(d), m - d.yearDay, n);
    }
  }

  /**
    Counting back from the same day, the (year, day-of-year) order of two
    results is exactly the order of how far back they lie, across any number
    of year boundaries and leap years.
   */
  lemma OrderMatchesAge(d: Date, m: nat, n: nat)
    requires Valid(d)
    ensures Before(DaysBefore(d, m), DaysBefore(d, n)) <==> m > n
  {
    if m > n {
      DaysBeforeAdds(d, n, m - n);
    } else if m < n {
      DaysBeforeAdds(d, m, n - m);
    }
  }
}

=== FILE: classify.dfy ===
/** Bot and static-asset classification of a request. */
module Classify {
  import opened Text

  /** The user-agent fragments that mark a bot, crawler or scripted client. */
  const BotPatterns: seq<string> := [
    "bot", "crawler", "spider", "scraper",
    "googlebot", "bingbot", "yandexbot", "baiduspider",
    "facebookexternalhit", "facebot", "twitterbot",
    "slackbot", "telegrambot", "whatsapp",
    "lighthouse", "gtmetrix", "pingdom",
    "headlesschrome", "phantomjs", "selenium",
    "python-requests", "curl", "wget",
    "http", "java/", "go-http-client"
  ]

  /** File extensions of non-page resources. */
  const StaticExtensions: seq<string> := [
    ".css", ".js", ".jpg", ".jpeg", ".png", ".gif", ".webp", ".svg",
    ".ico", ".woff", ".woff2", ".ttf", ".eot", ".otf",
    ".mp4", ".webm", ".mp3", ".wav", ".pdf", ".zip",
    ".xml", ".txt", ".json", ".map"
  ]

  /** Directory segments under which everything is a static resource. */
  const StaticDirectories: seq<string> := [
    "/assets/", "/static/", "/public/",
    "/images/", "/img/", "/css/", "/js/",
    "/fonts/", "/media/", "/uploads/"
  ]

  /** A user agent is a bot exactly when its lower-cased text contains a bot pattern. */
  function DetectBot(userAgent: string): (isBot: bool)
    ensures isBot <==> exists p :: p in BotPatterns && Occurs(p, ToLower(userAgent))
  {
    ContainsAny(ToLower(userAgent), BotPatterns)
  }

  /**
    A path is static exactly when its lower-cased text ends with a static
    extension or contains a static directory segment.
   */
  function IsStaticAsset(path: string): (isStatic: bool)
    ensures isStatic <==>
      (exists e :: e in StaticExtensions && HasSuffix(ToLower(path), e))
      || (exists d :: d in StaticDirectories && Occurs(d, ToLower(path)))
  {
    var lower := ToLower(path);
    EndsWithAny(lower, StaticExtensions) || ContainsAny(lower, StaticDirectories)
  }

  /** Bot detection does not depend on letter case. */
  lemma DetectBotIgnoresCase(a: string, b: string)
    requires SameIgnoringCase(a, b)
    ensures DetectBot(a) == DetectBot(b)
  {
    ToLowerCollapsesCase(a, b);
  }

  /** Static-asset detection does not depend on letter case. */
  lemma IsStaticAssetIgnoresCase(a: string, b: string)
    requires SameIgnoringCase(a, b)
    ensures IsStaticAsset(a) == IsStaticAsset(b)
  {
    ToLowerCollapsesCase(a, b);
  }

  /** Appending anything to a bot user agent keeps it a bot. */
  lemma BotStaysBotWhenExtended(userAgent: string, more: string)
    requires DetectBot(userAgent)
    ensures DetectBot(userAgent + more)
  {
    var p :| p in BotPatterns && Occurs(p, ToLower(userAgent));
    ToLowerDistributes(userAgent, more);
    OccursInExtension(p, ToLower(userAgent), ToLower(more));
    PatternMakesBot(userAgent + more, p);
  }

  /** Anything under a static directory is static, whatever surrounds it. */
  lemma UnderStaticDirectoryIsStatic(prefix: string, dir: string, rest: string)
    requires dir in StaticDirectories
    ensures IsStaticAsset(prefix + dir + rest)
  {
    var path := prefix + dir + rest;
    assert forall c :: c in dir ==> !IsUpper(c) && c != DottedCapitalI && c != KelvinSign;
    var lower := ToLower(path);
    assert lower[|prefix|..][..|dir|] == dir;
    assert Occurs(dir, lower);
  }

  /** Every character of an occurring string is a character of the string it occurs in. */
  lemma OccursKeepsChar(sub: string, s: string, c: char)
    requires Occurs(sub, s)
    ensures c in sub ==> c in s
  {
    var k :| 0 <= k <= |s| && sub <= s[k..];
    if c in sub {
      var j :| 0 <= j < |sub| && sub[j] == c;
      assert s[k + j] == c;
    }
  }

  /** Letters at least one of which every bot pattern contains. */
  const BotMarkers: set<char> := {'b', 'c', 'f', 'g', 'h', 'j', 'p', 's', 't', 'w', 'y'}

  lemma BotPatternsHaveMarker(p: string)
    requires p in BotPatterns
    ensures exists c :: c in BotMarkers && c in p
  {
  }

  /** A user agent with none of the marker letters, in either case, is never a bot. */
  lemma NoMarkerNoBot(userAgent: string)
    requires forall c :: c in ToLower(userAgent) ==> c !in BotMarkers
    ensures !DetectBot(userAgent)
  {
    var lower := ToLower(userAgent);
    forall p | p in BotPatterns
      ensures !Occurs(p, lower)
    {
      if Occurs(p, lower) {
        BotPatternsHaveMarker(p);
        var c :| c in BotMarkers && c in p;
        OccursKeepsChar(p, lower, c);
      }
    }
  }

  /** A user agent in which some bot pattern occurs is a bot. */
  lemma PatternMakesBot(userAgent: string, p: string)
    requires p in BotPatterns && Occurs(p, ToLower(userAgent))
    ensures DetectBot(userAgent)
  {
  }

  /** A `curl` client is a bot. */
  lemma CurlIsBot()
    ensures DetectBot("curl/7.68.0")
  {
    LowerCaseIsKept("curl/7.68.0");
    assert Occurs("curl", "curl/7.68.0") by {
      assert "curl" <= "curl/7.68.0"[0..];
    }
    PatternMakesBot("curl/7.68.0", "curl");
  }

  /** A dotted capital I lower-cases to `i`, so it can complete a bot pattern. */
  lemma DottedCapitalIMatchesPattern()
    ensures DetectBot("p\U{0130}ngdom")
  {
    var ua := "p\U{0130}ngdom";
    assert ToLower(ua) == "pingdom";
    assert Occurs("pingdom", ToLower(ua)) by {
      assert "pingdom" <= ToLower(ua)[0..];
    }
    PatternMakesBot(ua, "pingdom");
  }

  /** A plain browser agent is not a bot. */
  lemma BrowserIsNotBot()
    ensures !DetectBot("Mozilla/5.0")
  {
    assert ToLower("Mozilla/5.0") == "mozilla/5.0";
    NoMarkerNoBot("Mozilla/5.0");
  }

  /** The last characters of a string and of any suffix it has agree. */
  lemma SuffixAgrees(s: string, suffix: string, j: nat)
    ensures HasSuffix(s, suffix) && j < |suffix| ==> suffix[|suffix| - 1 - j] == s[|s| - 1 - j]
  {
    if HasSuffix(s, suffix) && j < |suffix| {
      assert s[|s| - |suffix|..][|suffix| - 1 - j] == s[|s| - 1 - j];
    }
  }

  /** A path ending in a static extension is static. */
  lemma ExtensionMakesStatic(path: string, e: string)
    requires e in StaticExtensions && HasSuffix(ToLower(path), e)
    ensures IsStaticAsset(path)
  {
  }

  /** No static extension ends in `tml`. */
  lemma StaticExtensionsAvoidTml(e: string)
    requires e in StaticExtensions
    ensures |e| >= 3 && (e[|e| - 1] != 'l' || e[|e| - 2] != 'm' || e[|e| - 3] != 't')
  {
  }

  /** No static extension is a suffix of a path ending in `.html`. */
  lemma HtmlHasNoStaticExtension(path: string)
    requires HasSuffix(ToLower(path), ".html")
    ensures forall e :: e in StaticExtensions ==> !HasSuffix(ToLower(path), e)
  {
    var lower := ToLower(path);
    SuffixAgrees(lower, ".html", 0);
    SuffixAgrees(lower, ".html", 1);
    SuffixAgrees(lower, ".html", 2);
    assert lower[|lower| - 1] == 'l' && lower[|lower| - 2] == 'm' && lower[|lower| - 3] == 't';
    forall e | e in StaticExtensions
      ensures !HasSuffix(lower, e)
    {
      StaticExtensionsAvoidTml(e);
      TmlEndingAvoids(lower, e);
    }
  }

  /** A string ending in `tml` does not end with a string whose last three characters differ from `tml`. */
  lemma TmlEndingAvoids(s: string, e: string)
    requires |s| >= 3 && s[|s| - 1] == 'l' && s[|s| - 2] == 'm' && s[|s| - 3] == 't'
    requires |e| >= 3 && (e[|e| - 1] != 'l' || e[|e| - 2] != 'm' || e[|e| - 3] != 't')
    ensures !HasSuffix(s, e)
  {
    SuffixAgrees(s, e, 0);
    SuffixAgrees(s, e, 1);
    SuffixAgrees(s, e, 2);
  }

  /** Letters at least one of which every static directory segment contains. */
  const DirectoryMarkers: set<char> := {'a', 'c', 'f', 'g', 'j', 'p', 's', 'u'}

  lemma StaticDirectoriesHaveMarker(d: string)
    requires d in StaticDirectories
    ensures exists c :: c in DirectoryMarkers && c in d
  {
  }

  /** A path with none of the directory marker letters lies in no static directory. */
  lemma NoMarkerNoStaticDirectory(path: string)
    requires forall c :: c in ToLower(path) ==> c !in DirectoryMarkers
    ensures forall d :: d in StaticDirectories ==> !Occurs(d, ToLower(path))
  {
    var lower := ToLower(path);
    forall d | d in StaticDirectories
      ensures !Occurs(d, lower)
    {
      if Occurs(d, lower) {
        StaticDirectoriesHaveMarker(d);
        var c :| c in DirectoryMarkers && c in d;
        OccursKeepsChar(d, lower, c);
      }
    }
  }

  /** An `.html` path outside every static directory is a page, not a static asset. */
  lemma HtmlPageIsNotStatic(path: string)
    requires HasSuffix(ToLower(path), ".html")
    requires forall d :: d in StaticDirectories ==> !Occurs(d, ToLower(path))
    ensures !IsStaticAsset(path)
  {
    HtmlHasNoStaticExtension(path);
  }

  /** A stylesheet is static. */
  lemma StylesheetIsStatic()
    ensures IsStaticAsset("/style.css")
  {
    LowerCaseIsKept("/style.css");
    assert HasSuffix("/style.css", ".css");
    ExtensionMakesStatic("/style.css", ".css");
  }

  /** An HTML page is not static. */
  lemma PageIsNotStatic()
    ensures !IsStaticAsset("/index.html")
  {
    LowerCaseIsKept("/index.html");
    assert HasSuffix("/index.html", ".html");
    NoMarkerNoStaticDirectory("/index.html");
    HtmlPageIsNotStatic("/index.html");
  }
}

=== FILE: parse.dfy ===
/**
  Turning one access-log line into a `PageView`: choosing between the
  with-host and the standard line shape, defaulting the host, converting the
  numeric fields, fingerprinting the visitor and classifying the request.

  The regular-expression engine is not modelled: a line arrives as the groups
  each of the two patterns captured from it (or `None` when a pattern did not
  match), group 0 being the whole match.
 */
module LogParse {
  import opened Results
  import opened Text
  import opened Records
  import opened Classify

  /** Why a line was dropped. */
  datatype ParseError = NoPatternMatched | BadTimestamp | BadStatusCode | BadBytesSent

  /** What the with-host and the standard pattern captured from one line. */
  datatype LineMatches = LineMatches(withHost: Option<seq<string>>, standard: Option<seq<string>>)

  /** Group counts, whole match included: nine groups with the host, eight without. */
  const WithHostGroups: nat := 10
  const StandardGroups: nat := 9

  /** What a regular-expression engine returns for these two patterns. */
  predicate WellFormed(m: LineMatches) {
    && (m.withHost.Some? ==> |m.withHost.value| == WithHostGroups)
    && (m.standard.Some? ==> |m.standard.value| == StandardGroups)
  }

  /**
    The collaborators a parse consults: the `THEIA_DEFAULT_HOST` setting (empty
    when unset), the processing date as `YYYY-MM-DD`, the timestamp parser and
    the one-way hash (SHA-256 rendered in hex).
   */
  datatype Environment = Environment(
    hostSetting: string,
    today: string,
    parseTime: string -> Option<Clock>,
    fingerprint: string -> string)

  /** The host used when a line carries none: the setting, or `default` when it is unset. */
  function DefaultHost(setting: string): (host: string)
    ensures |host| > 0
    ensures setting != "" ==> host == setting
    ensures setting == "" ==> host == "default"
  {
    if setting != "" then setting else "default"
  }

  /** The groups a line matched with, and whether they include the host. */
  datatype Matched = Matched(groups: seq<string>, withHost: bool)

  /** The with-host shape is tried first; the standard shape only when it fails. */
  function DetermineMatchingPattern(m: LineMatches): (r: Result<Matched, ParseError>)
    requires WellFormed(m)
    ensures r.Ok? <==> m.withHost.Some? || m.standard.Some?
    ensures r.Err? ==> r.error == NoPatternMatched
    ensures r.Ok? ==> (r.value.withHost <==> m.withHost.Some?)
    ensures r.Ok? && r.value.withHost ==> r.value.groups == m.withHost.value && |r.value.groups| == WithHostGroups
    ensures r.Ok? && !r.value.withHost ==> r.value.groups == m.standard.value && |r.value.groups| == StandardGroups
  {
    if m.withHost.Some? then Ok(Matched(m.withHost.value, true))
    else if m.standard.Some? then Ok(Matched(m.standard.value, false))
    else Err(NoPatternMatched)
  }

  /** The flags of an event agree with the classifiers applied to its own fields. */
  predicate Classified(pv: PageView) {
    pv.isBot == DetectBot(pv.userAgent) && pv.isStatic == IsStaticAsset(pv.path)
  }

  /**
    The field handling shared by both line shapes, given the captured groups
    and the host already chosen: group 1 is the client address, 2 the
    timestamp, 3 the method (ignored), 4 the path, 5 the status, 6 the byte
    count, 7 the referrer and 8 the user agent. The timestamp is read first,
    then the status, then the byte count; the first that fails decides the error.
   */
  function ParseFields(g: seq<string>, host: string, env: Environment): (r: Result<PageView, ParseError>)
    requires |g| >= StandardGroups
    ensures r.Ok? <==> env.parseTime(g[2]).Some? && Atoi(g[5]).Some? && Atoi(g[6]).Some?
    ensures r.Ok? ==> Classified(r.value)
    ensures r.Ok? ==>
      && r.value.host == host && r.value.path == g[4] && r.value.referrer == g[7] && r.value.userAgent == g[8]
      && env.parseTime(g[2]) == Some(r.value.clock)
      && Atoi(g[5]) == Some(r.value.statusCode) && Atoi(g[6]) == Some(r.value.bytesSent)
      && r.value.idHash == env.fingerprint(g[1] + g[8] + env.today)
    ensures r == Err(BadTimestamp) <==> env.parseTime(g[2]).None?
    ensures r == Err(BadStatusCode) <==> env.parseTime(g[2]).Some? && Atoi(g[5]).None?
    ensures r == Err(BadBytesSent) <==> env.parseTime(g[2]).Some? && Atoi(g[5]).Some? && Atoi(g[6]).None?
  {
    match env.parseTime(g[2])
    case None => Err(BadTimestamp)
    case Some(clock) =>
      match Atoi(g[5])
      case None => Err(BadStatusCode)
      case Some(statusCode) =>
        match Atoi(g[6])
        case None => Err(BadBytesSent)
        case Some(bytesSent) =>
          Ok(PageView(
            clock, host, g[4], g[7], g[8], statusCode, bytesSent,
            env.fingerprint(g[1] + g[8] + env.today),
            DetectBot(g[8]), IsStaticAsset(g[4])))
  }

  /**
    Post-match handling of one line: the with-host shape supplies the host in
    group 9, the standard shape takes the configured default.
   */
  function ParseNginxLog(m: LineMatches, env: Environment): (r: Result<PageView, ParseError>)
    requires WellFormed(m)
    ensures m.withHost.None? && m.standard.None? ==> r == Err(NoPatternMatched)
    ensures m.withHost.Some? ==> r == ParseFields(m.withHost.value, m.withHost.value[9], env)
    ensures m.withHost.None? && m.standard.Some? ==>
      r == ParseFields(m.standard.value, DefaultHost(env.hostSetting), env)
  {
    match DetermineMatchingPattern(m)
    case Err(e) => Err(e)
    case Ok(Matched(g, withHost)) =>
      var host := if withHost then g[9] else DefaultHost(env.hostSetting);
      ParseFields(g, host, env)
  }

  // ---------------------------------------------------------------------------
  // The log line a request produces, and parsing it back

  /** The fields of one combined-format log line. */
  datatype LogEntry = LogEntry(
    address: string, time: string, verb: string, path: string,
    statusCode: nat, bytesSent: nat, referrer: string, userAgent: string,
    host: Option<string>)

  /** The line without the optional trailing host field. */
  function StandardLine(e: LogEntry): string {
    e.address + " - - [" + e.time + "] \"" + e.verb + " " + e.path + " HTTP/1.1\" "
      + FormatInt(e.statusCode) + " " + FormatInt(e.bytesSent)
      + " \"" + e.referrer + "\" \"" + e.userAgent + "\""
  }

  /** The full line, with the host field when the entry has one. */
  function RenderLine(e: LogEntry): string {
    if e.host.Some? then StandardLine(e) + " \"" + e.host.value + "\"" else StandardLine(e)
  }

  /** The characters the patterns' `\S` does not match: space, tab, newline, form feed, carriage return. */
  predicate IsSpace(c: char) {
    c == ' ' || c == '\t' || c == '\n' || c == '\U{000C}' || c == '\r'
  }

  /** A non-empty run of non-space characters, as `(\S+)` captures it. */
  predicate Token(s: string) {
    |s| > 0 && forall i :: 0 <= i < |s| ==> !IsSpace(s[i])
  }

  /** A string without the character `c`. */
  predicate Avoids(s: string, c: char) {
    forall i :: 0 <= i < |s| ==> s[i] != c
  }

  /**
    An entry whose fields the patterns capture back unchanged: address, method
    and path are tokens, the timestamp is non-empty and has no `]`, and the
    quoted fields have no `"`.
   */
  predicate Renderable(e: LogEntry) {
    && Token(e.address) && Token(e.verb) && Token(e.path)
    && |e.time| > 0 && Avoids(e.time, ']')
    && Avoids(e.referrer, '"') && Avoids(e.userAgent, '"')
    && (e.host.Some? ==> Avoids(e.host.value, '"'))
  }

  /**
    The groups the two patterns capture from the line of a renderable entry:
    a line with a host matches both shapes, a line without matches only the
    standard one. The pattern engine itself is not modelled, so this is the
    assumed reading of such a line.
   */
  function Captures(e: LogEntry): (m: LineMatches)
    requires Renderable(e)
    ensures WellFormed(m)
    ensures m.standard.Some? && (m.withHost.Some? <==> e.host.Some?)
  {
    var standard := [StandardLine(e), e.address, e.time, e.verb, e.path,
                     FormatInt(e.statusCode), FormatInt(e.bytesSent), e.referrer, e.userAgent];
    if e.host.Some? then LineMatches(Some([RenderLine(e)] + standard[1..] + [e.host.value]), Some(standard))
    else LineMatches(None, Some(standard))
  }

  /** The event a log entry should become. */
  function ExpectedView(e: LogEntry, env: Environment, clock: Clock): PageView {
    PageView(
      clock,
      if e.host.Some? then e.host.value else DefaultHost(env.hostSetting),
      e.path, e.referrer, e.userAgent, e.statusCode, e.bytesSent,
      env.fingerprint(e.address + e.userAgent + env.today),
      DetectBot(e.userAgent), IsStaticAsset(e.path))
  }

  /** Parsing the captures of a rendered line recovers every field of the entry. */
  lemma ParseRecoversEntry(e: LogEntry, env: Environment, clock: Clock)
    requires Renderable(e)
    requires e.statusCode <= MaxInt64 && e.bytesSent <= MaxInt64
    requires env.parseTime(e.time) == Some(clock)
    ensures ParseNginxLog(Captures(e), env) == Ok(ExpectedView(e, env, clock))
  {
    var m := Captures(e);
    var g := if e.host.Some? then m.withHost.value else m.standard.value;
    var host := if e.host.Some? then e.host.value else DefaultHost(env.hostSetting);
    assert ParseNginxLog(m, env) == ParseFields(g, host, env);
    CapturedFields(e);
    FormatIntRoundTrip(e.statusCode);
    FormatIntRoundTrip(e.bytesSent);
    FieldsRecoverEntry(g, host, e, env, clock);
  }

  /** The groups captured from an entry's line, with or without a host, hold the entry's fields. */
  lemma CapturedFields(e: LogEntry)
    requires Renderable(e)
    ensures var m := Captures(e);
      var g := if e.host.Some? then m.withHost.value else m.standard.value;
      && g[1] == e.address && g[2] == e.time && g[4] == e.path && g[7] == e.referrer && g[8] == e.userAgent
      && g[5] == FormatInt(e.statusCode) && g[6] == FormatInt(e.bytesSent)
  {
  }

  /** The field handling of groups holding an entry's fields yields the entry's event. */
  lemma FieldsRecoverEntry(g: seq<string>, host: string, e: LogEntry, env: Environment, clock: Clock)
    requires |g| >= StandardGroups
    requires g[1] == e.address && g[2] == e.time && g[4] == e.path && g[7] == e.referrer && g[8] == e.userAgent
    requires Atoi(g[5]) == Some(e.statusCode as int) && Atoi(g[6]) == Some(e.bytesSent as int)
    requires env.parseTime(e.time) == Some(clock)
    ensures ParseFields(g, host, env) == Ok(PageView(
      clock, host, e.path, e.referrer, e.userAgent, e.statusCode, e.bytesSent,
      env.fingerprint(e.address + e.userAgent + env.today), DetectBot(e.userAgent), IsStaticAsset(e.path)))
  {
  }

  /** A status field too large for a 64-bit integer drops the line. */
  lemma OversizedStatusIsRejected(e: LogEntry, env: Environment, clock: Clock)
    requires Renderable(e)
    requires e.statusCode > MaxInt64
    requires env.parseTime(e.time) == Some(clock)
    ensures ParseNginxLog(Captures(e), env) == Err(BadStatusCode)
  {
    NatDigitsRoundTrip(e.statusCode);
  }

  // ---------------------------------------------------------------------------
  // The reading loop: parse every line, drop the ones that fail

  /** The parse outcome of every line, in line order. */
  function Outcomes(lines: seq<LineMatches>, env: Environment): (r: seq<Result<PageView, ParseError>>)
    requires forall i :: 0 <= i < |lines| ==> WellFormed(lines[i])
    ensures |r| == |lines|
    ensures forall i :: 0 <= i < |lines| ==> r[i] == ParseNginxLog(lines[i], env)
  {
    if |lines| == 0 then []
    else Outcomes(lines[..|lines| - 1], env) + [ParseNginxLog(lines[|lines| - 1], env)]
  }

  /** The values of the outcomes that succeeded, in order; failures are skipped. */
  function Successes<T, E>(outcomes: seq<Result<T, E>>): (values: seq<T>)
    ensures |values| <= |outcomes|
    ensures forall v :: v in values ==> Ok(v) in outcomes
  {
    if |outcomes| == 0 then []
    else
      var front := outcomes[..|outcomes| - 1];
      var kept := Successes(front);
      assert forall v :: v in kept ==> Ok(v) in outcomes by {
        assert forall r :: r in front ==> r in outcomes;
      }
      match outcomes[|outcomes| - 1]
      case Ok(v) => kept + [v]
      case Err(_) => kept
  }

  /** When nothing failed, nothing is skipped: the values line up with the outcomes. */
  lemma {:induction false} SuccessesOfAllOk<T, E>(outcomes: seq<Result<T, E>>)
    requires forall i :: 0 <= i < |outcomes| ==> outcomes[i].Ok?
    ensures |Successes(outcomes)| == |outcomes|
    ensures forall i :: 0 <= i < |outcomes| ==> Successes(outcomes)[i] == outcomes[i].value
  {
    if |outcomes| > 0 {
      var front := outcomes[..|outcomes| - 1];
      SuccessesOfAllOk(front);
      var last := outcomes[|outcomes| - 1];
      var all, kept := Successes(outcomes), Successes(front);
      assert all == kept + [last.value];
      forall i | 0 <= i < |outcomes| ensures all[i] == outcomes[i].value {
        if i < |front| {
          assert all[i] == kept[i];
          assert front[i] == outcomes[i];
        }
      }
    }
  }

  /** How many of the first `n` outcomes succeeded. */
  function OkBefore<T, E>(outcomes: seq<Result<T, E>>, n: nat): nat
    requires n <= |outcomes|
  {
    if n == 0 then 0 else OkBefore(outcomes, n - 1) + (if outcomes[n - 1].Ok? then 1 else 0)
  }

  /** Counting successes in a prefix does not look past the prefix. */
  lemma {:induction false} OkBeforeOfPrefix<T, E>(outcomes: seq<Result<T, E>>, m: nat, n: nat)
    requires n <= m <= |outcomes|
    ensures OkBefore(outcomes[..m], n) == OkBefore(outcomes, n)
  {
    if n > 0 {
      OkBeforeOfPrefix(outcomes, m, n - 1);
      assert outcomes[..m][n - 1] == outcomes[n - 1];
    }
  }

  /**
    Nothing that succeeded is skipped and the order is kept: there is one value
    per success, and the value of the outcome at position `i` sits at the
    position given by the number of successes before `i`.
   */
  lemma {:induction false} SuccessesInOrder<T, E>(outcomes: seq<Result<T, E>>)
    ensures |Successes(outcomes)| == OkBefore(outcomes, |outcomes|)
    ensures forall i :: 0 <= i < |outcomes| && outcomes[i].Ok? ==>
      OkBefore(outcomes, i) < |Successes(outcomes)| && Successes(outcomes)[OkBefore(outcomes, i)] == outcomes[i].value
  {
    if |outcomes| > 0 {
      var n := |outcomes| - 1;
      var front, last := outcomes[..n], outcomes[n];
      SuccessesInOrder(front);
      OkBeforeOfPrefix(outcomes, n, n);
      var all, kept := Successes(outcomes), Successes(front);
      assert all == if last.Ok? then kept + [last.value] else kept;
      forall i | 0 <= i < |outcomes| && outcomes[i].Ok?
        ensures OkBefore(outcomes, i) < |all| && all[OkBefore(outcomes, i)] == outcomes[i].value
      {
        if i < n {
          OkBeforeOfPrefix(outcomes, n, i);
          assert front[i] == outcomes[i];
          assert all[OkBefore(outcomes, i)] == kept[OkBefore(outcomes, i)];
        }
      }
    }
  }

  /** The events produced from a sequence of lines, in line order, unparseable lines skipped. */
  function ParseLines(lines: seq<LineMatches>, env: Environment): (events: seq<PageView>)
    requires forall i :: 0 <= i < |lines| ==> WellFormed(lines[i])
    ensures |events| <= |lines|
    ensures forall pv :: pv in events ==> Classified(pv)
    ensures forall pv :: pv in events ==> exists i :: 0 <= i < |lines| && ParseNginxLog(lines[i], env) == Ok(pv)
    ensures |events| == OkBefore(Outcomes(lines, env), |lines|)
    ensures forall i :: 0 <= i < |lines| && ParseNginxLog(lines[i], env).Ok? ==>
      var j := OkBefore(Outcomes(lines, env), i);
      j < |events| && events[j] == ParseNginxLog(lines[i], env).value
  {
    var outcomes := Outcomes(lines, env);
    SuccessesInOrder(outcomes);
    Successes(outcomes)
  }

  /** Every line is well formed and parses. */
  predicate AllParse(lines: seq<LineMatches>, env: Environment) {
    forall i :: 0 <= i < |lines| ==> WellFormed(lines[i]) && ParseNginxLog(lines[i], env).Ok?
  }

  /** When every line parses, the events are the lines' events, one each, in line order. */
  lemma ParseLinesKeepsOrder(lines: seq<LineMatches>, env: Environment)
    requires AllParse(lines, env)
    ensures |ParseLines(lines, env)| == |lines|
    ensures forall i :: 0 <= i < |lines| ==> ParseLines(lines, env)[i] == ParseNginxLog(lines[i], env).value
  {
    SuccessesOfAllOk(Outcomes(lines, env));
  }
}

=== FILE: pipeline.dfy ===
/**
  The ingestion path end to end: the reader parses lines in order and hands
  every parsed event through the queue, in order, to the single aggregator.
  `Ingest` is the store once the aggregator has consumed every parsed event:
  the events applied in line order.
 */
module Pipeline {
  import opened Results
  import opened Text
  import opened Records
  import opened Classify
  import opened LogParse
  import opened Aggregate

  /** The store after a sequence of lines has been read, parsed and aggregated. */
  function Ingest(db: Store, lines: seq<LineMatches>, env: Environment): (r: Store)
    requires forall i :: 0 <= i < |lines| ==> WellFormed(lines[i])
    ensures StaticFlagsAgree(db.stats) ==> StaticFlagsAgree(r.stats)
    ensures forall h :: h in db.visitors ==> h in r.visitors && r.visitors[h] == db.visitors[h]
    ensures |r.visitors| <= |db.visitors| + |lines|
    ensures forall i :: 0 <= i < |lines| && ParseNginxLog(lines[i], env).Ok? ==>
      var pv := ParseNginxLog(lines[i], env).value;
      BucketOf(pv) in r.stats && pv.idHash in r.visitors
    ensures forall k :: PageViews(r.stats, k) + BotViews(r.stats, k)
                     == PageViews(db.stats, k) + BotViews(db.stats, k) + Hits(ParseLines(lines, env), k)
  {
    var events := ParseLines(lines, env);
    var r := ApplyAll(db, events);
    assert StaticFlagsAgree(db.stats) ==> StaticFlagsAgree(r.stats) by {
      if StaticFlagsAgree(db.stats) {
        assert forall i :: 0 <= i < |events| ==> Classified(events[i]) by {
          assert forall i :: 0 <= i < |events| ==> events[i] in events;
        }
        ApplyAllKeepsStaticFlags(db, events);
      }
    }
    VisitorsOnlyGrow(db, events);
    AllBucketsCountEvents(db, events);
    r
  }

  /**
    Lines whose events all fall in one hour of the day, each from a visitor
    the store has not seen and no two from the same visitor: each event adds a
    fingerprint row, and the row the last event updates counts every one of
    them as a unique visitor. Lines that do not parse add nothing.
   */
  lemma IngestCountsNewVisitors(db: Store, lines: seq<LineMatches>, env: Environment, hour: int)
    requires forall i :: 0 <= i < |lines| ==> WellFormed(lines[i])
    requires var events := ParseLines(lines, env);
      && (forall i :: 0 <= i < |events| ==> events[i].clock.hour == hour && events[i].idHash !in db.visitors)
      && (forall i, j :: 0 <= i < j < |events| ==> events[i].idHash != events[j].idHash)
    ensures var events, r := ParseLines(lines, env), Ingest(db, lines, env);
      && |r.visitors| == |db.visitors| + |events|
      && (|events| > 0 ==>
            var last := events[|events| - 1];
            && BucketOf(last) in r.stats
            && r.stats[BucketOf(last)].uniqueVisitors == VisitorsInHour(db.visitors, hour) + |events|)
  {
    var events := ParseLines(lines, env);
    DistinctNewHashesAreFirstSightings(db.visitors, events);
    FirstSightingsAddOneRowEach(db, events);
    FirstSightingsAreCounted(db, events, hour);
    HourHitsOfOneHour(events, hour);
    if |events| > 0 {
      LastSnapshotCountsHour(db, events);
    }
  }
}

=== FILE: records.dfy ===
/**
  The records the pipeline passes around and stores: the per-line visit event
  and the rows and composite keys of the four aggregate tables.
 */
module Records {

  /**
    The parts of a parsed log timestamp the pipeline reads: the calendar year,
    the ordinal day within that year, the hour of day, and the instant that the
    visitor table records as `first_seen`, in seconds.
   */
  datatype Clock = Clock(year: int, yearDay: int, hour: int, seconds: int)

  /** One classified log line (a `PageView`). */
  datatype PageView = PageView(
    clock: Clock,
    host: string,
    path: string,
    referrer: string,
    userAgent: string,
    statusCode: int,
    bytesSent: int,
    idHash: string,
    isBot: bool,
    isStatic: bool)

  /** A row of `visitor_hashes`, keyed by the fingerprint hash. */
  datatype VisitorRow = VisitorRow(hourBucket: int, firstSeen: int)

  /** The composite key `(hour, year_day, year, path, host)` shared by all aggregate tables. */
  datatype Bucket = Bucket(hour: int, yearDay: int, year: int, path: string, host: string)

  /** A row of `hourly_stats`. */
  datatype StatsRow = StatsRow(pageViews: nat, isStatic: bool, uniqueVisitors: nat, botViews: nat)

  /** The key of `hourly_status_codes`: a bucket plus the HTTP status. */
  datatype StatusKey = StatusKey(bucket: Bucket, statusCode: int)

  /** The key of `hourly_referrers`: a bucket plus the referrer text. */
  datatype ReferrerKey = ReferrerKey(bucket: Bucket, referrer: string)

  /** The four tables of the store. */
  datatype Store = Store(
    visitors: map<string, VisitorRow>,
    stats: map<Bucket, StatsRow>,
    statusCodes: map<StatusKey, nat>,
    referrers: map<ReferrerKey, nat>)

  const EmptyStore: Store := Store(map[], map[], map[], map[])

  /** The aggregate bucket an event falls into. */
  function BucketOf(pv: PageView): Bucket {
    Bucket(pv.clock.hour, pv.clock.yearDay, pv.clock.year, pv.path, pv.host)
  }
}

=== FILE: results.dfy ===
/** Option and Result, the failure-carrying values used throughout the model. */
module Results {

  /** A value that may be absent: a query that found no row, a field that did not convert. */
  datatype Option<+T> = None | Some(value: T)

  /** The outcome of an operation that either yields a value or reports an error. */
  datatype Result<+T, +E> = Ok(value: T) | Err(error: E)
}

=== FILE: retention.dfy ===
/**
  The retention sweep: the three aggregate tables lose the rows dated before a
  (year, day-of-year) cutoff 60 days back, and the fingerprint table loses the
  rows first seen more than one day ago.
 */
module Retention {
  import opened Records
  import opened Calendar

  /** How far back aggregate rows are kept, in days. */
  const AggregateRetentionDays: nat := 60

  /** How long a fingerprint row is kept, in seconds: SQLite's `'-1 day'`. */
  const FingerprintRetentionSeconds: int := 86400

  /** The cutoff day of a sweep run on `today`. */
  function CutoffFor(today: Date): (cutoff: Date)
    requires Valid(today)
    ensures Valid(cutoff) && Before(cutoff, today)
    ensures DayNumber(cutoff) == DayNumber(today) - AggregateRetentionDays
  {
    DaysBefore(today, AggregateRetentionDays)
  }

  /** The delete condition of the aggregate sweeps: year before, or same year and day before. */
  predicate Expired(b: Bucket, cutoff: Date)
    ensures Expired(b, cutoff) <==> Before(Date(b.year, b.yearDay), cutoff)
  {
    b.year < cutoff.year || (b.year == cutoff.year && b.yearDay < cutoff.yearDay)
  }

  /** The delete condition of the fingerprint sweep. */
  predicate Stale(row: VisitorRow, now: int)
    ensures Stale(row, now) <==> now - row.firstSeen > FingerprintRetentionSeconds
  {
    row.firstSeen < now - FingerprintRetentionSeconds
  }

  /** `DELETE FROM hourly_stats WHERE ...`: expired rows go, every other row stays as it was. */
  function SweepStats(stats: map<Bucket, StatsRow>, cutoff: Date): (r: map<Bucket, StatsRow>)
    ensures forall k :: k in r <==> k in stats && !Expired(k, cutoff)
    ensures forall k :: k in r ==> r[k] == stats[k]
  {
    map k | k in stats && !Expired(k, cutoff) :: stats[k]
  }

  /** `DELETE FROM hourly_status_codes WHERE ...` */
  function SweepStatusCodes(counts: map<StatusKey, nat>, cutoff: Date): (r: map<StatusKey, nat>)
    ensures forall k :: k in r <==> k in counts && !Expired(k.bucket, cutoff)
    ensures forall k :: k in r ==> r[k] == counts[k]
  {
    map k | k in counts && !Expired(k.bucket, cutoff) :: counts[k]
  }

  /** `DELETE FROM hourly_referrers WHERE ...` */
  function SweepReferrers(counts: map<ReferrerKey, nat>, cutoff: Date): (r: map<ReferrerKey, nat>)
    ensures forall k :: k in r <==> k in counts && !Expired(k.bucket, cutoff)
    ensures forall k :: k in r ==> r[k] == counts[k]
  {
    map k | k in counts && !Expired(k.bucket, cutoff) :: counts[k]
  }

  /** `DELETE FROM visitor_hashes WHERE first_seen < now - 1 day` */
  function SweepVisitors(visitors: map<string, VisitorRow>, now: int): (r: map<string, VisitorRow>)
    ensures forall h :: h in r <==> h in visitors && !Stale(visitors[h], now)
    ensures forall h :: h in r ==> r[h] == visitors[h]
  {
    map h | h in visitors && !Stale(visitors[h], now) :: visitors[h]
  }

  /** One cleanup run: the four delete passes, each on its own table. */
  function PerformAllCleanups(db: Store, today: Date, now: int): (r: Store)
    requires Valid(today)
    ensures r.stats.Keys <= db.stats.Keys && r.statusCodes.Keys <= db.statusCodes.Keys
    ensures r.referrers.Keys <= db.referrers.Keys && r.visitors.Keys <= db.visitors.Keys
    ensures forall k :: k in r.stats ==> !Expired(k, CutoffFor(today))
    ensures forall k :: k in r.statusCodes ==> !Expired(k.bucket, CutoffFor(today))
    ensures forall k :: k in r.referrers ==> !Expired(k.bucket, CutoffFor(today))
    ensures forall h :: h in r.visitors <==> h in db.visitors && !Stale(db.visitors[h], now)
    ensures forall h :: h in r.visitors ==> r.visitors[h] == db.visitors[h]
    ensures forall h :: h in r.visitors ==> r.visitors[h].firstSeen >= now - FingerprintRetentionSeconds
    ensures forall k :: k in db.stats && !Expired(k, CutoffFor(today)) ==> k in r.stats && r.stats[k] == db.stats[k]
    ensures forall k :: k in db.statusCodes && !Expired(k.bucket, CutoffFor(today)) ==>
      k in r.statusCodes && r.statusCodes[k] == db.statusCodes[k]
    ensures forall k :: k in db.referrers && !Expired(k.bucket, CutoffFor(today)) ==>
      k in r.referrers && r.referrers[k] == db.referrers[k]
    ensures forall h :: h in db.visitors && !Stale(db.visitors[h], now) ==>
      h in r.visitors && r.visitors[h] == db.visitors[h]
  {
    var cutoff := CutoffFor(today);
    Store(
      SweepVisitors(db.visitors, now),
      SweepStats(db.stats, cutoff),
      SweepStatusCodes(db.statusCodes, cutoff),
      SweepReferrers(db.referrers, cutoff))
  }

  /** A second run with the same clock deletes nothing more. */
  lemma CleanupIdempotent(db: Store, today: Date, now: int)
    requires Valid(today)
    ensures PerformAllCleanups(PerformAllCleanups(db, today, now), today, now) == PerformAllCleanups(db, today, now)
  {
    var once := PerformAllCleanups(db, today, now);
    var twice := PerformAllCleanups(once, today, now);
    assert twice.stats == once.stats;
    assert twice.statusCodes == once.statusCodes;
    assert twice.referrers == once.referrers;
    assert twice.visitors == once.visitors;
  }

  /** A later cutoff keeps no row an earlier one deletes. */
  lemma LaterCutoffDeletesMore(stats: map<Bucket, StatsRow>, early: Date, late: Date)
    requires !Before(late, early)
    ensures SweepStats(stats, late).Keys <= SweepStats(stats, early).Keys
  {
  }

  /**
    The aggregate retention window: a row dated `age` days before the sweep
    day is deleted exactly when it is more than 60 days old, wherever the
    year boundary and leap days fall.
   */
  lemma RetentionWindow(today: Date, age: nat, b: Bucket)
    requires Valid(today)
    requires Date(b.year, b.yearDay) == DaysBefore(today, age)
    ensures Expired(b, CutoffFor(today)) <==> age > AggregateRetentionDays
  {
    OrderMatchesAge(today, age, AggregateRetentionDays);
  }

  /** Across a year boundary the cutoff lands in the previous year, leap day included. */
  lemma YearBoundaryCutoff()
    ensures CutoffFor(Date(2025, 30)) == Date(2024, 336)
  {
    assert DaysInYear(2024) == 366;
  }

  /** On valid days a row is expired exactly when its running day number is below the cutoff's. */
  lemma ExpiredByDayNumber(b: Bucket, cutoff: Date)
    requires Valid(Date(b.year, b.yearDay)) && Valid(cutoff)
    ensures Expired(b, cutoff) <==> DayNumber(Date(b.year, b.yearDay)) < DayNumber(cutoff)
  {
    BeforeIsEarlierDay(Date(b.year, b.yearDay), cutoff);
  }

  /** A sweep run later keeps no fingerprint that an earlier sweep deletes. */
  lemma LaterSweepDeletesMoreFingerprints(visitors: map<string, VisitorRow>, earlier: int, later: int)
    requires earlier <= later
    ensures SweepVisitors(visitors, later).Keys <= SweepVisitors(visitors, earlier).Keys
  {
  }

  /** A fingerprint row survives exactly while it is at most one day old. */
  lemma FingerprintWindow(visitors: map<string, VisitorRow>, now: int, h: string)
    requires h in visitors
    ensures h in SweepVisitors(visitors, now) <==> now - visitors[h].firstSeen <= FingerprintRetentionSeconds
  {
  }
}

=== FILE: text.dfy ===
/**
  The string operations the log pipeline relies on: lower-casing, substring and
  suffix tests, and decimal integer conversion in both directions.
 */
module Text {
  import opened Results

  /** The range of Go's 64-bit `int`, which bounds what the integer conversion accepts. */
  const MinInt64: int := -0x8000_0000_0000_0000
  const MaxInt64: int := 0x7fff_ffff_ffff_ffff

  predicate IsUpper(c: char) {
    'A' <= c <= 'Z'
  }

  predicate IsDigit(c: char) {
    '0' <= c <= '9'
  }

  /**
    The two non-ASCII letters whose lower case is an ASCII letter: the dotted
    capital I (U+0130) lower-cases to `i` and the Kelvin sign (U+212A) to `k`.
   */
  const DottedCapitalI: char := '\U{0130}'
  const KelvinSign: char := '\U{212A}'

  /**
    Lower-cases one character as far as ASCII text can tell: an ASCII capital
    becomes its small letter, the two letters above become `i` and `k`, and
    every other character is left alone.
   */
  function LowerChar(c: char): char {
    if IsUpper(c) then (c as int + 32) as char
    else if c == DottedCapitalI then 'i'
    else if c == KelvinSign then 'k'
    else c
  }

  /** Lower-cases a string character by character. */
  function ToLower(s: string): (r: string)
    ensures |r| == |s|
    ensures forall i :: 0 <= i < |s| ==> !IsUpper(r[i])
    ensures forall i :: 0 <= i < |s| && IsUpper(s[i]) ==> r[i] as int == s[i] as int + 32
    ensures forall i :: 0 <= i < |s| && s[i] == DottedCapitalI ==> r[i] == 'i'
    ensures forall i :: 0 <= i < |s| && s[i] == KelvinSign ==> r[i] == 'k'
    ensures forall i :: 0 <= i < |s| && !IsUpper(s[i]) && s[i] != DottedCapitalI && s[i] != KelvinSign ==> r[i] == s[i]
  {
    seq(|s|, i requires 0 <= i < |s| => LowerChar(s[i]))
  }

  /** Text with no capital letter is its own lower case. */
  lemma LowerCaseIsKept(s: string)
    requires forall i :: 0 <= i < |s| ==> !IsUpper(s[i]) && s[i] != DottedCapitalI && s[i] != KelvinSign
    ensures ToLower(s) == s
  {
  }

  /** Two characters that are equal, or an ASCII capital and its small letter. */
  predicate SameCharIgnoringCase(x: char, y: char) {
    || x == y
    || (IsUpper(x) && y as int == x as int + 32)
    || (IsUpper(y) && x as int == y as int + 32)
  }

  /** Two strings that differ only in the case of their ASCII letters. */
  predicate SameIgnoringCase(a: string, b: string) {
    |a| == |b| && forall i :: 0 <= i < |a| ==> SameCharIgnoringCase(a[i], b[i])
  }

  /** Strings equal up to case lower-case to the same string, and lower-casing is idempotent. */
  lemma ToLowerCollapsesCase(a: string, b: string)
    requires SameIgnoringCase(a, b)
    ensures ToLower(a) == ToLower(b)
    ensures ToLower(ToLower(a)) == ToLower(a)
  {
  }

  /** `sub` occurs somewhere inside `s`: the reference meaning of a substring test. */
  ghost predicate Occurs(sub: string, s: string) {
    exists k :: 0 <= k <= |s| && sub <= s[k..]
  }

  /** Go's `strings.Contains`, scanning start positions left to right. */
  function Contains(s: string, sub: string): (r: bool)
    ensures r <==> Occurs(sub, s)
    decreases |s|
  {
    if sub <= s then
      assert s[0..] == s;
      true
    else if |s| == 0 then
      false
    else
      var rest := Contains(s[1..], sub);
      assert forall k :: 0 <= k <= |s| - 1 ==> s[1..][k..] == s[k + 1..];
      assert Occurs(sub, s) ==> Occurs(sub, s[1..]) by {
        if Occurs(sub, s) {
          var k :| 0 <= k <= |s| && sub <= s[k..];
          assert k != 0;
          assert sub <= s[1..][k - 1..];
        }
      }
      rest
  }

  /** Lower-casing works piecewise on a concatenation. */
  lemma ToLowerDistributes(a: string, b: string)
    ensures ToLower(a + b) == ToLower(a) + ToLower(b)
  {
    var whole, parts := ToLower(a + b), ToLower(a) + ToLower(b);
    forall i | 0 <= i < |whole| ensures whole[i] == parts[i] {
      if i < |a| {
        assert (a + b)[i] == a[i];
      } else {
        assert (a + b)[i] == b[i - |a|];
      }
    }
  }

  /** What occurs in a string still occurs once more text is appended. */
  lemma OccursInExtension(sub: string, s: string, t: string)
    requires Occurs(sub, s)
    ensures Occurs(sub, s + t)
  {
    var k :| 0 <= k <= |s| && sub <= s[k..];
    assert sub <= (s + t)[k..] by {
      assert forall i :: 0 <= i < |sub| ==> (s + t)[k..][i] == s[k..][i];
    }
  }

  /** Go's `strings.HasSuffix`. */
  predicate HasSuffix(s: string, suffix: string)
    ensures HasSuffix(s, suffix) <==>
      |suffix| <= |s| && forall j :: 0 <= j < |suffix| ==> s[|s| - |suffix| + j] == suffix[j]
  {
    |suffix| <= |s| && s[|s| - |suffix|..] == suffix
  }

  /** Text ending in `suffix` has that suffix, whatever precedes it. */
  lemma SuffixOfConcatenation(prefix: string, suffix: string)
    ensures HasSuffix(prefix + suffix, suffix)
  {
  }

  /** A string with a suffix is its front followed by that suffix. */
  lemma SuffixSplits(s: string, suffix: string)
    requires HasSuffix(s, suffix)
    ensures s == s[..|s| - |suffix|] + suffix
  {
  }

  /** True when some string of `patterns` occurs inside `s`. */
  function ContainsAny(s: string, patterns: seq<string>): (r: bool)
    ensures r <==> exists i :: 0 <= i < |patterns| && Occurs(patterns[i], s)
  {
    if |patterns| == 0 then false
    else if Contains(s, patterns[0]) then true
    else
      var rest := ContainsAny(s, patterns[1..]);
      assert forall i :: 1 <= i < |patterns| ==> patterns[1..][i - 1] == patterns[i];
      rest
  }

  /** True when `s` ends with some string of `suffixes`. */
  function EndsWithAny(s: string, suffixes: seq<string>): (r: bool)
    ensures r <==> exists i :: 0 <= i < |suffixes| && HasSuffix(s, suffixes[i])
  {
    if |suffixes| == 0 then false
    else if HasSuffix(s, suffixes[0]) then true
    else
      var rest := EndsWithAny(s, suffixes[1..]);
      assert forall i :: 1 <= i < |suffixes| ==> suffixes[1..][i - 1] == suffixes[i];
      rest
  }

  // ---------------------------------------------------------------------------
  // Decimal conversion

  predicate AllDigits(s: string) {
    forall i :: 0 <= i < |s| ==> IsDigit(s[i])
  }

  function DigitValue(c: char): nat
    requires IsDigit(c)
  {
    c as int - '0' as int
  }

  function DigitChar(d: nat): (c: char)
    requires d < 10
    ensures IsDigit(c) && DigitValue(c) == d
  {
    ('0' as int + d) as char
  }

  /** The number a string of decimal digits denotes, most significant digit first. */
  function DigitsValue(s: string): nat
    requires AllDigits(s)
  {
    if |s| == 0 then 0 else 10 * DigitsValue(s[..|s| - 1]) + DigitValue(s[|s| - 1])
  }

  /** The shortest decimal spelling of a natural number. */
  function NatDigits(n: nat): (s: string)
    ensures |s| > 0 && AllDigits(s)
    ensures |s| > 1 ==> s[0] != '0'
  {
    if n < 10 then [DigitChar(n)] else NatDigits(n / 10) + [DigitChar(n % 10)]
  }

  /** Reading back the digits of `n` gives `n`. */
  lemma {:induction false} NatDigitsRoundTrip(n: nat)
    ensures DigitsValue(NatDigits(n)) == n
  {
    if n >= 10 {
      var s := NatDigits(n);
      NatDigitsRoundTrip(n / 10);
      assert s[..|s| - 1] == NatDigits(n / 10);
    }
  }

  /** Decimal integer text: one or more digits, or a sign followed by one or more digits. */
  predicate IntegerText(s: string) {
    || (|s| > 0 && AllDigits(s))
    || (|s| > 1 && (s[0] == '+' || s[0] == '-') && AllDigits(s[1..]))
  }

  /** The integer that decimal integer text denotes. */
  function IntegerValue(s: string): int
    requires IntegerText(s)
  {
    if IsDigit(s[0]) then DigitsValue(s) as int
    else if s[0] == '-' then -(DigitsValue(s[1..]) as int)
    else DigitsValue(s[1..])
  }

  /**
    Go's `strconv.Atoi` for a 64-bit `int`: an optional sign, then one or more
    ASCII digits, and a value inside the 64-bit range; anything else is an error.
   */
  function Atoi(s: string): (r: Option<int>)
    ensures r.Some? <==> IntegerText(s) && MinInt64 <= IntegerValue(s) <= MaxInt64
    ensures r.Some? ==> r.value == IntegerValue(s)
  {
    if |s| == 0 then None
    else
      var signed := s[0] == '-' || s[0] == '+';
      var digits := if signed then s[1..] else s;
      assert signed ==> forall i :: 0 < i < |s| ==> digits[i - 1] == s[i];
      if |digits| == 0 || !AllDigits(digits) then None
      else
        var magnitude: int := DigitsValue(digits);
        var v := if s[0] == '-' then -magnitude else magnitude;
        if MinInt64 <= v <= MaxInt64 then Some(v) else None
  }

  /** The decimal spelling of an integer as a log line carries it: a minus sign for negatives, then the shortest digits. */
  function FormatInt(n: int): (s: string)
    ensures |s| > 0
  {
    if n < 0 then "-" + NatDigits(-n) else NatDigits(n)
  }

  /** Converting a 64-bit integer to text and back yields the integer. */
  lemma FormatIntRoundTrip(n: int)
    requires MinInt64 <= n <= MaxInt64
    ensures Atoi(FormatInt(n)) == Some(n)
  {
    var s := FormatInt(n);
    if n < 0 {
      NatDigitsRoundTrip(-n);
      assert s[1..] == NatDigits(-n);
      assert s[0] == '-';
    } else {
      NatDigitsRoundTrip(n);
      assert IsDigit(s[0]);
    }
  }
}
